=== FILE: README.md ===
# golang-starter-template: the shared core, modelled in Dafny

The repository holds four web-service starters: echo and fiber, each in a
JWT edition and a "lite" edition. Most of their code is framework glue.
This project models the logic they own and proves what it promises:

- **JWT handling** (`jwt.dfy`, with `token_text.dfy`). `GenerateToken` builds
  CustomClaims from a payload and the clock. iat and nbf are now, exp is now
  plus the payload's hours, and the issuer is the app name. The claims are
  signed with HS256 under the configured secret. `ParseToken` checks, in the
  order golang-jwt v5 does, that the token is well formed, that the signature
  verifies, and then `exp` and `nbf`, which the modelled claims always carry:
  `nbf <= now < exp`.
- **Authentication service** (`auth_service.dfy`). Login, refresh and
  register, over the user table and the token model.
- **Bearer middleware and role gate** (`middleware.dfy`). These form a
  per-request state machine: the request is rejected with a status, or its
  identity is stored in the context and it is passed to the next handler
  exactly once.
- **Repository registry** (`registry.dfy`). `DoInTransaction` runs a unit of
  work on a transaction. The transaction rolls back on an error or a panic and
  commits on success. A registry that already holds a transaction is reused.
- **User repository and user service** (`users.dfy`, `user_repository.dfy`,
  `user_service.dfy`, `enrolment.dfy`). The repository works on a soft-delete
  `users` table, and the service maps users to responses.
- **Configuration** (`validate.dfy`, `config.dfy`). The recursive
  required-field validator, the functional options, and the argument filter
  and location join of `LoadEnvs`.

The model's conventions:

- A Go `(value, error)` pair is a `Result`.
- Everything the code gets from outside is a parameter of the operation:
  - the clock, as integer seconds;
  - whether the JWT library signs;
  - what the SQL driver reports;
  - the password hash and the password-match predicate;
  - the fresh user id;
  - BEGIN, COMMIT and ROLLBACK failures;
  - the command-line flag values and `os.Args`.
- The `users` table is a sequence of rows inside a `Store` object. Both the
  database handle and a transaction's working copy are Stores.
- HS256 is a collision-free stand-in, `Hs256(key, input)`. Equal tags come
  only from the same key over the same input, so a token verifies only under
  the secret it was signed with.
- A token is text made of escaped fields. It is not base64url, but it can be
  read back, and its round trips are proved.

## Model

| member | source | states |
|---|---|---|
| `Jwt.SubjectKindsDistinct` | echo-jwt-starter/pkg/jwthandler/jwt.go:13-16 | the two subject kinds are different strings, "access_token" and "refresh_token" |
| `Jwt.GenerateToken` | echo-jwt-starter/pkg/jwthandler/jwt.go:32-55 | a token exactly when the library signs; on a signing failure, the library's error unchanged and no token |
| `Jwt.ParseToken` | echo-jwt-starter/pkg/jwthandler/jwt.go:58-74 | every error is a JWT error (malformed, bad signature, or invalid claims saying whether exp passed or nbf is ahead), and no claims come with it; claims are returned only when nbf <= now < exp (the modelled claims always carry both) |
| `Jwt.GeneratedTokenParses` | echo-jwt-starter/pkg/jwthandler/jwt.go:35-45 | a token generated at `now` parses under the same secret at any t in [now, exp) to claims with the payload's id, role and subject, the app name as issuer, iat = nbf = now and exp = now + hours * 3600 |
| `Jwt.GeneratedTokenExpires` | echo-jwt-starter/pkg/jwthandler/jwt.go:61-67 | before its nbf or from its exp on, a generated token is refused with invalid claims, flagged expired or not yet valid |
| `Jwt.ForeignSecretRejected` | echo-jwt-starter/pkg/jwthandler/jwt.go:61-63 | under any secret other than the one it was signed with, a generated token is refused with a bad signature, at any time |
| `Jwt.AcceptedTokenIsSigned` | echo-jwt-starter/pkg/jwthandler/jwt.go:58-66 | whatever ParseToken accepts is a payload carrying the returned claims, signed under the checking secret |
| `Jwt.GeneratedTokenGrants` | echo-jwt-starter/pkg/jwthandler/jwt.go:41-43 | a generated token is accepted exactly during [now, now + hours * 3600), always for its payload's id, role and subject |
| `Jwt.DecodeEncodeClaims` | echo-jwt-starter/pkg/jwthandler/jwt.go:18-22 | the claims written into a token read back unchanged |
| `Auth.AuthService.constructor` | fiber-jwt-starter/internal/service/auth_service.go:26-31 | the service keeps the configuration and the registry it is given |
| `Auth.AuthService.Login` | fiber-jwt-starter/internal/service/auth_service.go:33-72 | a lookup error is returned unchanged; a wrong password gives 400 "Password salah"; a signing failure gives 500 for the access or the refresh token; success exactly when the user is found, the password matches and both tokens sign; each token reads the clock when it is issued; the access token grants the user's id and role with subject access_token for JwtTtlHours from its own reading, and the refresh token grants them with subject refresh_token for JwtRefreshTtlDays * 24 hours from its own, later reading |
| `Auth.AuthService.RefreshToken` | fiber-jwt-starter/internal/service/auth_service.go:74-94 | 401 "Invalid refresh token" unless the token parses now and its subject is refresh_token; a signing error is returned unchanged; success exactly when the token parses with the refresh subject and the new access token signs; on success the input refresh token comes back unchanged and the new access token grants the parsed id and role for JwtTtlHours from the clock reading taken when it is issued |
| `Auth.AuthService.AccessTokenRefused` | fiber-jwt-starter/internal/service/auth_service.go:75-78 | an access token is refused by RefreshToken at any time |
| `Auth.AuthService.ExpiredRefreshRefused` | fiber-jwt-starter/internal/service/auth_service.go:76-77 | a refresh token presented at or after its exp is refused with 401 |
| `Auth.AuthService.LoginThenRefresh` | fiber-jwt-starter/internal/service/auth_service.go:57-93 | within its lifetime, the refresh token from a successful login buys an access token for the same user and role, valid from the moment it is issued, and is returned unchanged |
| `Auth.AuthService.Register` | fiber-jwt-starter/internal/service/auth_service.go:96-131 | the answer and the new table are exactly what `Enrol` specifies for the table of the store the registry binds to, with the request's password hashed |
| `Enrolment.Enrol` | echo-lite-starter/internal/service/user_service.go:64-99 | an existence-check failure gives its 500; a taken e-mail gives 409 on field "email"; a hashing failure gives 500; otherwise the row (id, e-mail, hash, role "user", not deleted) is added exactly when the INSERT ran and the driver did not report zero affected rows, and success happens exactly when it reported one; the response holds id, e-mail and role and no password; in every refused case the table is unchanged |
| `Enrolment.EnrolKeepsEmailsUnique` | fiber-jwt-starter/internal/service/auth_service.go:99-107 | if no two live users shared an e-mail before, none do afterwards |
| `Enrolment.EnrolledUserFound` | fiber-jwt-starter/internal/service/auth_service.go:116-124 | after a successful registration, looking the e-mail up finds exactly the new user with the hashed password and role "user" |
| `Enrolment.EnrolOnlyAppends` | echo-lite-starter/internal/service/user_service.go:84-92 | existing rows are never altered; at most one row is added, and exactly one on success |
| `UserSvc.UserService.constructor` | echo-lite-starter/internal/service/user_service.go:24-29 | the service keeps the registry it is given |
| `UserSvc.UserService.Get` | echo-lite-starter/internal/service/user_service.go:31-48 | a repository error is returned unchanged; otherwise one response per live row, in order, with that row's id, e-mail and role |
| `UserSvc.UserService.GetById` | echo-lite-starter/internal/service/user_service.go:50-62 | succeeds exactly when the repository finds the user, whose id, e-mail and role it returns; otherwise the repository's error unchanged |
| `UserSvc.UserService.Create` | echo-lite-starter/internal/service/user_service.go:64-99 | the answer and the new table are exactly what `Enrol` specifies, with the request's password hashed |
| `UserRepo.GetById` | fiber-lite-starter/internal/repository/psql/user.go:54-79 | a live row with that id, or 404 UserNotFound exactly when there is none; a driver failure gives 500 "Failed to get user by ID" |
| `UserRepo.FindByEmail` | fiber-lite-starter/internal/repository/psql/user.go:81-107 | a live row with exactly that e-mail, or 404 UserNotFound exactly when there is none; any other driver error is returned unchanged |
| `UserRepo.ExistsByEmail` | fiber-lite-starter/internal/repository/psql/user.go:109-122 | true exactly when some live row has that e-mail; a driver failure gives 500 "Failed to check user existence" |
| `UserRepo.ExistsAgreesWithFind` | echo-jwt-starter/internal/repository/psql/user.go:23-64 | with a healthy driver, ExistsByEmail is true exactly when FindByEmail finds a user |
| `UserRepo.UserRepository.constructor` | echo-jwt-starter/internal/repository/psql/user.go:17-21 | the repository is bound to the executor it is given |
| `UserRepo.UserRepository.Get` | fiber-lite-starter/internal/repository/psql/user.go:23-52 | every live row in storage order, as id, e-mail, password and role; the 500 of a failing query, scan or iteration otherwise |
| `UserRepo.UserRepository.Create` | echo-jwt-starter/internal/repository/psql/user.go:66-85 | success exactly when the driver reports one affected row; every failure is 500 "Failed to create user"; the row, with deleted_at NULL, is added exactly when the statement ran and the driver did not report zero affected rows, and otherwise the table is unchanged |
| `Users.LiveRows` | fiber-lite-starter/internal/repository/psql/user.go:24-28 | a row is listed exactly when it is in the table and not soft-deleted |
| `Users.FirstSelected` | fiber-lite-starter/internal/repository/psql/user.go:84-89 | a row the key selects, live and matching exactly; none exactly when no row is selected |
| `Users.AppendKeepsUniqueEmails` | fiber-lite-starter/internal/repository/psql/user.go:124-128 | adding a row whose e-mail no live row has keeps live e-mails unique |
| `RepoRegistry.Tx.Begin` | fiber-jwt-starter/internal/repository/psql/registry.go:25 | a new active transaction whose working copy starts as the database's table |
| `RepoRegistry.Tx.Commit` | fiber-jwt-starter/internal/repository/psql/registry.go:40 | the transaction is committed; the database takes the copy unless COMMIT fails, whose error is returned |
| `RepoRegistry.Tx.Rollback` | fiber-jwt-starter/internal/repository/psql/registry.go:35 | the transaction is rolled back; ROLLBACK's error, if any, is returned |
| `RepoRegistry.Registry.constructor` | fiber-jwt-starter/internal/repository/psql/registry.go:14-19 | a new registry holds the database and no transaction |
| `RepoRegistry.Registry.InTransaction` | fiber-jwt-starter/internal/repository/psql/registry.go:44-47 | the registry handed to the unit of work holds the same database and the new transaction |
| `RepoRegistry.Registry.GetUserRepository` | fiber-jwt-starter/internal/repository/psql/registry.go:54-59 | the repository is bound to the transaction's copy when there is one, else to the database |
| `RepoRegistry.Registry.DoInTransaction` | fiber-jwt-starter/internal/repository/psql/registry.go:21-52 | a BEGIN error is returned without running the work; otherwise the new transaction ends exactly once: rolled back on a panic (the panic goes on) or an error (a ROLLBACK error replaces it), committed on success (a COMMIT error is returned); the database changes only on a successful commit, and then to what the work left; inside a transaction the work runs on it with no begin, commit or rollback |
| `Middleware.BearerToken` | echo-jwt-starter/middleware/auth_bearer.go:16-24 | a token exactly when the header starts with "Bearer ", and it is the header with that one prefix removed |
| `Middleware.Authenticate` | fiber-jwt-starter/middleware/auth_bearer.go:19-34 | claims exactly when the header is "Bearer " followed by a token that parses now; they are that token's claims, inside their validity window |
| `Middleware.AuthBearer` | echo-jwt-starter/middleware/auth_bearer.go:13-49 | no valid bearer token gives 401 "Unauthorized" with the context untouched and next not called; otherwise user_id and role are set from the claims and next is called exactly once |
| `Middleware.StringLocal` | fiber-jwt-starter/middleware/auth_bearer.go:42-50 | the string stored under the key, or "" when there is none or it is not a string |
| `Middleware.GetUserId` | echo-jwt-starter/middleware/auth_bearer.go:52-55 | the stored user id; "" when absent or when the stored value is not a string |
| `Middleware.GetRole` | echo-jwt-starter/middleware/auth_bearer.go:58-61 | the stored role; "" when absent or when the stored value is not a string |
| `Middleware.IdentityReadBack` | fiber-jwt-starter/middleware/auth_bearer.go:36-39 | after the bearer check the getters read back the token's id and role, and other context values are kept |
| `Middleware.GrantedTokenAuthenticates` | echo-jwt-starter/middleware/auth_bearer.go:24-47 | a token granting a user passes the bearer check with that id and role during its window, whatever its subject kind, so a refresh token passes too |
| `Middleware.AuthenticatedTokenIsSigned` | fiber-jwt-starter/middleware/auth_bearer.go:27-34 | a header passes only with a token signed under the secret |
| `Middleware.AllowSet` | echo-jwt-starter/middleware/authorization.go:11-14 | the allow-set holds exactly the strings of the authorised list |
| `Middleware.Decide` | echo-jwt-starter/middleware/authorization.go:16-40 | pass exactly when the stored role is a string in the allow-set; a missing or non-string role gives 403 with the framework's role-missing message; a role outside the set gives 403 "Terlarang: role anda tidak diizinkan untuk mengakses resource ini" |
| `Middleware.RoleGate.constructor` | fiber-jwt-starter/middleware/authorization.go:8-13 | the gate's allow-set is the set of the authorised roles |
| `Middleware.RoleGate.Handle` | fiber-jwt-starter/middleware/authorization.go:15-37 | the verdict for the stored role; the context values are untouched and next is called once exactly when the request passes |
| `Middleware.EmptyAllowListForbids` | fiber-jwt-starter/middleware/authorization.go:10-13 | with no authorised roles every request gets 403 |
| `Middleware.AllowedRolesIgnoreOrder` | fiber-jwt-starter/middleware/authorization.go:11-13 | lists with the same members give the same gate, whatever their order and repetitions |
| `Middleware.BearerThenGate` | echo-jwt-starter/middleware/authorization.go:18-28 | after the bearer check, the gate passes exactly when the token's role is in the authorised list |
| `ConfigValidate.IsEmptyValue` | fiber-lite-starter/config/validate.go:55-74 | empty exactly when the value is the zero value of its kind (empty string, false, zero number, nil pointer or interface, empty collection); structs and other kinds never are |
| `ConfigValidate.Validate` | fiber-lite-starter/config/validate.go:9-12 | validation of the configuration is the field walk with no prefix |
| `ConfigValidate.ValidateStructReportsFirstMissing` | fiber-lite-starter/config/validate.go:15-52 | validateStruct reports the first missing required field of the whole tree, depth-first in declaration order, and nothing when none is missing |
| `ConfigValidate.ValidateFieldsReportsFirstMissing` | fiber-lite-starter/config/validate.go:24-49 | the field loop returns the message of the first missing field found among the fields and their nested structs |
| `ConfigValidate.ValidatePassesIffNothingMissing` | fiber-lite-starter/config/validate.go:38-40 | Validate passes exactly when no exported required field anywhere is empty; otherwise its message is "field '<path>' is required but not set" for the first one |
| `ConfigValidate.UnexportedFieldIgnored` | fiber-lite-starter/config/validate.go:29-31 | an unexported field changes nothing, however it is tagged |
| `Config.Configure.constructor` | echo-jwt-starter/config/config.go:63 | a new Configure has empty path and file name |
| `Config.WithPath` | echo-jwt-starter/config/config.go:94-99 | sets the path, keeps the file name, never fails |
| `Config.WithFilename` | echo-jwt-starter/config/config.go:102-107 | sets the file name, keeps the path, never fails |
| `Config.Configuration` | echo-jwt-starter/config/config.go:62-72 | the new Configure holds what the options leave when applied in order; the first option error stops the loop and is raised |
| `Config.ApplyOptionsStops` | echo-jwt-starter/config/config.go:65-70 | once an option fails, the options after it do not matter |
| `Config.PathThenFilename` | echo-jwt-starter/config/config.go:124-127 | the two options LoadEnvs passes set exactly the flag values and do not fail |
| `Config.Contains` | echo-jwt-starter/config/config.go:130 | true exactly when the substring occurs at some index |
| `Config.KeptArgsMembers` | echo-jwt-starter/config/config.go:129-135 | an argument is kept exactly when it is one of the arguments and mentions neither config_path nor config_filename |
| `Config.KeptArgsIdempotent` | echo-jwt-starter/config/config.go:129-135 | filtering the kept arguments again changes nothing |
| `Config.ConfigLocation` | echo-jwt-starter/config/config.go:115-120 | the path, then "/" unless the path is "./", then the file name |
| `Config.LoadEnvs` | echo-jwt-starter/config/config.go:110-138 | the new arguments are those that mention neither flag, in order, and the announced location is the path joined with the file name |

## Left out

- HTTP glue is not modelled: servers, routes, handlers, request validation,
  JSON responses, CORS, gzip, the rate limiter and graceful shutdown. A
  middleware's response is only its status and message.
- HMAC-SHA256 and base64url serialisation are replaced by collision-free
  stand-ins. Key secrecy, the `alg` header, and other HMAC algorithms the
  library would also accept under the same key are not modelled.
- Tokens carry whole seconds, and there is no leeway.
- `Jwt.ParseToken`: the modelled claims always carry all seven fields, and a payload missing one is malformed. In golang-jwt v5, `exp` and `nbf` are optional (RFC 7519, sections 4.1.4 and 4.1.5). When one is absent, that time check is skipped, so a token signed under the secret without `exp` would never expire, and a missing `id` or `role` reads as "". `GenerateToken` always sets every claim, so no token this program issues is affected.
- The `!token.Valid` branch of ParseToken (echo-jwt-starter/pkg/jwthandler/jwt.go:68-71) has no counterpart. golang-jwt v5 returns a nil error only for a valid token, so the branch cannot be taken.
- The fiber starters' `jwthandler` package is not part of this model. The echo one stands for both.
- Password hashing and comparison are not modelled. They are a hashing function that may fail, applied to the request's password, and a match predicate.
- `utils.GenerateID` is not modelled; the id is a parameter.
- The SQL text, the driver and the connection pool are not modelled. Driver outcomes are parameters, and `DBExecutor` is the `Store` class.
- Unique indexes and races between the existence check and the insert are
  not modelled, because a single caller runs at a time here.
- `Config.Initialize` is not modelled: the file and environment loading, `sync.Once` and `log.Fatal`.
- Flag parsing in `LoadEnvs` is not modelled; the flag values and `os.Args` are parameters.
- Logging is not modelled, and neither are the time and id utilities.
- The float branch of isEmptyValue is reduced to a "this float is zero" flag. Slices, maps and arrays are reduced to their length.
- `Jwt.GenerateToken`: exp is now plus hours times 3600 in unbounded integers. Go's `time.Duration` overflow for huge hour counts is not modelled.
- `UserRepo.UserRepository.Get`: a scan fault is placed at a row index, and an iteration fault is reported after the last row. Which row a real driver fails on is not modelled. The SELECT has no ORDER BY, so the database may list the rows in any order; the model lists them in storage order.
- `UserRepo.UserRepository.Create`: the driver's rows-affected report is an input, not derived from the table. A report of zero leaves the table as it was. Any other report, including a failure to read the count or a count above one, adds exactly one row, because the statement inserts a single row.
- `Enrolment.Enrol`: the rows-affected report is an input in the same way as for `UserRepo.UserRepository.Create`.
- `RepoRegistry.Registry.DoInTransaction`: the unit of work is a function from the table it sees to the table it leaves and how it ended. Its own use of the registry it receives is summarised by that function.

=== FILE: auth_service.dfy ===
/**
 * The authentication service (AuthServiceImpl): log in, refresh an access
 * token, register.
 *
 * The service reads and writes the table of the store its registry binds
 * repositories to. Password checking is the predicate `matches(hash, plain)`
 * and hashing the function `hash(plain)`, which may fail; id generation, the
 * clock and whether the token library signs are parameters.
 */
module Auth {
  import opened Errors
  import opened Users
  import opened UserRepo
  import opened Jwt
  import opened RepoRegistry
  import opened Enrolment

  datatype LoginRequest = LoginRequest(email: string, password: string)
  datatype LoginResponse = LoginResponse(accessToken: string, refreshToken: string)
  datatype RegisterRequest = RegisterRequest(email: string, password: string)

  class AuthService {
    const cfg: Settings
    const repository: Registry

    /** NewAuthService. */
    constructor (cfg: Settings, repository: Registry)
      ensures this.cfg == cfg && this.repository == repository
    {
      this.cfg := cfg;
      this.repository := repository;
    }

    /** Lifetime of an access token, in seconds. */
    function AccessTtl(): int
    {
      cfg.jwtTtlHours * SecondsPerHour
    }

    /** Lifetime of a refresh token, in seconds: the configured days as hours. */
    function RefreshTtl(): int
    {
      (cfg.jwtRefreshTtlDays * 24) * SecondsPerHour
    }

    /**
     * Login: look the user up by e-mail, check the password, then issue an
     * access token and a refresh token for the user's id and role. Each token
     * reads the clock when it is issued: `now` for the access token, `later`
     * for the refresh token.
     */
    function Login(req: LoginRequest, lookup: RowFault, matches: (string, string) -> bool, now: int, later: int,
                   accessSign: SignOutcome, refreshSign: SignOutcome): (r: Result<LoginResponse>)
      reads repository.Target()
      ensures var found := FindByEmail(repository.Target().users, req.email, lookup);
              && (found.Err? ==> r == Err(found.error))
              && (found.Ok? && !matches(found.value.password, req.password) ==>
                    r == Err(Custom(400, "Password salah")))
              && (found.Ok? && matches(found.value.password, req.password) && accessSign.SignFails? ==>
                    r == Err(Custom(500, "Gagal membuat access token")))
              && (found.Ok? && matches(found.value.password, req.password) && accessSign.Signs?
                  && refreshSign.SignFails? ==>
                    r == Err(Custom(500, "Gagal membuat refresh token")))
              && (r.Ok? <==> found.Ok? && matches(found.value.password, req.password)
                             && accessSign.Signs? && refreshSign.Signs?)
              && (r.Ok? ==>
                    && Grants(r.value.accessToken, cfg.jwtSecret, found.value.id, found.value.role,
                              AccessToken, now, now + AccessTtl())
                    && Grants(r.value.refreshToken, cfg.jwtSecret, found.value.id, found.value.role,
                              Jwt.RefreshToken, later, later + RefreshTtl()))
    {
      var found := FindByEmail(repository.Target().users, req.email, lookup);
      if found.Err? then Err(found.error)
      else if !matches(found.value.password, req.password) then Err(Custom(400, "Password salah"))
      else
        var user := found.value;
        var accessPayload := Payload(user.id, user.role, AccessToken, cfg.jwtTtlHours);
        match GenerateToken(accessPayload, cfg, now, accessSign)
        case Err(_) => Err(Custom(500, "Gagal membuat access token"))
        case Ok(accessToken) =>
          var refreshPayload := Payload(user.id, user.role, Jwt.RefreshToken, cfg.jwtRefreshTtlDays * 24);
          match GenerateToken(refreshPayload, cfg, later, refreshSign)
          case Err(_) => Err(Custom(500, "Gagal membuat refresh token"))
          case Ok(refreshToken) =>
            GeneratedTokenGrants(accessPayload, cfg, now);
            GeneratedTokenGrants(refreshPayload, cfg, later);
            Ok(LoginResponse(accessToken, refreshToken))
    }

    /**
     * RefreshToken: a token that parses at `now` and whose subject is the
     * refresh kind buys a new access token for the same id and role, issued
     * at the clock's next reading `issuedAt`; the refresh token itself is
     * handed back unchanged.
     */
    function RefreshToken(refreshToken: string, now: int, issuedAt: int, signing: SignOutcome): (r: Result<LoginResponse>)
      ensures var parsed := ParseToken(refreshToken, cfg.jwtSecret, now);
              && (parsed.Err? || parsed.value.subject != Jwt.RefreshToken ==>
                    r == Err(Custom(401, "Invalid refresh token")))
              && (parsed.Ok? && parsed.value.subject == Jwt.RefreshToken && signing.SignFails? ==>
                    r == Err(signing.err))
              && (r.Ok? <==> parsed.Ok? && parsed.value.subject == Jwt.RefreshToken && signing.Signs?)
              && (r.Ok? ==>
                    && r.value.refreshToken == refreshToken
                    && Grants(r.value.accessToken, cfg.jwtSecret, parsed.value.id, parsed.value.role,
                              AccessToken, issuedAt, issuedAt + AccessTtl()))
    {
      var parsed := ParseToken(refreshToken, cfg.jwtSecret, now);
      if parsed.Err? || parsed.value.subject != Jwt.RefreshToken then
        Err(Custom(401, "Invalid refresh token"))
      else
        var claims := parsed.value;
        var payload := Payload(claims.id, claims.role, AccessToken, cfg.jwtTtlHours);
        match GenerateToken(payload, cfg, issuedAt, signing)
        case Err(e) => Err(e)
        case Ok(accessToken) =>
          GeneratedTokenGrants(payload, cfg, issuedAt);
          Ok(LoginResponse(accessToken, refreshToken))
    }

    /** An access token never buys a new one, whenever it is presented. */
    lemma AccessTokenRefused(p: Payload, issuedAt: int, t: int, t': int, signing: SignOutcome)
      requires p.subject == AccessToken
      ensures RefreshToken(GenerateToken(p, cfg, issuedAt, Signs).value, t, t', signing)
              == Err(Custom(401, "Invalid refresh token"))
    {
      var token := GenerateToken(p, cfg, issuedAt, Signs).value;
      GeneratedTokenGrants(p, cfg, issuedAt);
      assert ParseToken(token, cfg.jwtSecret, t).Ok? ==> ParseToken(token, cfg.jwtSecret, t).value.subject == AccessToken;
      SubjectKindsDistinct();
    }

    /** A refresh token presented at or after its exp is refused. */
    lemma ExpiredRefreshRefused(p: Payload, issuedAt: int, t: int, t': int, signing: SignOutcome)
      requires issuedAt + p.expirationHours * SecondsPerHour <= t
      ensures RefreshToken(GenerateToken(p, cfg, issuedAt, Signs).value, t, t', signing)
              == Err(Custom(401, "Invalid refresh token"))
    {
      GeneratedTokenExpires(p, cfg, issuedAt, t);
    }

    /**
     * The refresh token a successful login hands out buys, at any time in its
     * lifetime, an access token for the same user and role, valid from the
     * moment it is issued, and is itself returned unchanged.
     */
    lemma LoginThenRefresh(req: LoginRequest, lookup: RowFault, matches: (string, string) -> bool,
                           now: int, later: int, accessSign: SignOutcome, refreshSign: SignOutcome,
                           t: int, issuedAt: int)
      requires Login(req, lookup, matches, now, later, accessSign, refreshSign).Ok?
      requires later <= t < later + RefreshTtl()
      ensures var login := Login(req, lookup, matches, now, later, accessSign, refreshSign).value;
              var user := FindByEmail(repository.Target().users, req.email, lookup).value;
              var r := RefreshToken(login.refreshToken, t, issuedAt, Signs);
              && r.Ok? && r.value.refreshToken == login.refreshToken
              && Grants(r.value.accessToken, cfg.jwtSecret, user.id, user.role, AccessToken,
                        issuedAt, issuedAt + AccessTtl())
    {
    }

    /**
     * Register: adds the account as `Enrol` specifies, on the store the
     * registry binds repositories to; nothing else changes.
     */
    method Register(req: RegisterRequest, existsFault: RowFault, hash: string -> Result<string>, newId: string,
                    exec: ExecOutcome) returns (r: Result<UserResponse>)
      modifies repository.Target()
      ensures var o := Enrol(old(repository.Target().users), req.email, existsFault, hash(req.password), newId, exec);
              r == o.result && repository.Target().users == o.users
    {
      var repo := repository.GetUserRepository();
      var existing := ExistsByEmail(repo.db.users, req.email, existsFault);
      if existing.Err? {
        return Err(existing.error);
      }
      if existing.value {
        return Err(FieldError(409, "email", "Email sudah terdaftar"));
      }
      var hashed := hash(req.password);
      if hashed.Err? {
        return Err(Custom(500, "Gagal mengenkripsi password"));
      }
      var user := UserDB(newId, req.email, hashed.value, DefaultRole);
      var err := repo.Create(user, exec);
      if err.Some? {
        return Err(err.value);
      }
      return Ok(ToResponse(user));
    }
  }
}

=== FILE: config.dfy ===
/**
 * Start-up configuration (package config): the functional options that set
 * where the configuration file is, the location shown at start-up, and the
 * filtering of the program arguments in LoadEnvs.
 *
 * The command-line flag values and the program's arguments are parameters;
 * reading the file and the environment (Initialize) is not modelled.
 */
module Config {
  import opened Errors

  /** The two settings an option may change. */
  datatype Location = Location(path: string, filename: string)

  /**
   * An option: given the settings it is applied to, the settings it leaves
   * and the error it reports, if any.
   */
  type ConfigOption = Location -> (Location, Option<Error>)

  /** Configure: where the configuration file is looked for. */
  class Configure {
    var path: string
    var filename: string

    constructor ()
      ensures path == "" && filename == ""
    {
      path := "";
      filename := "";
    }

    function Current(): Location
      reads this
    {
      Location(path, filename)
    }
  }

  /** WithPath: sets the path, keeps the file name, never fails. */
  function WithPath(path: string): (opt: ConfigOption)
    ensures forall l :: opt(l) == (Location(path, l.filename), None)
  {
    (l: Location) => (Location(path, l.filename), None)
  }

  /** WithFilename: sets the file name, keeps the path, never fails. */
  function WithFilename(name: string): (opt: ConfigOption)
    ensures forall l :: opt(l) == (Location(l.path, name), None)
  {
    (l: Location) => (Location(l.path, name), None)
  }

  /**
   * The options applied in order from `start`: the settings reached, and the
   * error of the first option that failed (the options after it are not applied).
   */
  function ApplyOptions(opts: seq<ConfigOption>, start: Location): (Location, Option<Error>)
  {
    if opts == [] then (start, None)
    else
      var (next, err) := opts[0](start);
      if err.Some? then (next, err) else ApplyOptions(opts[1..], next)
  }

  lemma {:induction false} ApplyOptionsSnoc(opts: seq<ConfigOption>, opt: ConfigOption, start: Location)
    requires ApplyOptions(opts, start).1.None?
    ensures ApplyOptions(opts + [opt], start) == opt(ApplyOptions(opts, start).0)
  {
    if opts != [] {
      assert (opts + [opt])[1..] == opts[1..] + [opt];
      ApplyOptionsSnoc(opts[1..], opt, opts[0](start).0);
    }
  }

  /**
   * Configuration: a fresh Configure with the options applied in order. An
   * option's error stops the loop and is raised as a panic, returned here as
   * `panicked`; the options before it have taken effect.
   */
  method Configuration(opts: seq<ConfigOption>) returns (c: Configure, panicked: Option<Error>)
    ensures fresh(c)
    ensures (c.Current(), panicked) == ApplyOptions(opts, Location("", ""))
  {
    c := new Configure();
    var i := 0;
    while i < |opts|
      invariant 0 <= i <= |opts|
      invariant ApplyOptions(opts[..i], Location("", "")) == (c.Current(), None)
    {
      ApplyOptionsSnoc(opts[..i], opts[i], Location("", ""));
      assert opts[..i + 1] == opts[..i] + [opts[i]];
      var (next, err) := opts[i](c.Current());
      c.path, c.filename := next.path, next.filename;
      if err.Some? {
        ApplyOptionsStops(opts, i, Location("", ""));
        return c, err;
      }
      i := i + 1;
    }
    assert opts[..i] == opts;
    panicked := None;
  }

  /** Once an option fails, the options after it do not matter. */
  lemma {:induction false} ApplyOptionsStops(opts: seq<ConfigOption>, i: nat, start: Location)
    requires i < |opts|
    requires ApplyOptions(opts[..i], start).1.None?
    requires opts[i](ApplyOptions(opts[..i], start).0).1.Some?
    ensures ApplyOptions(opts, start) == opts[i](ApplyOptions(opts[..i], start).0)
  {
    if i == 0 {
    } else {
      assert opts[..i][0] == opts[0];
      assert opts[..i][1..] == opts[1..][..i - 1];
      ApplyOptionsStops(opts[1..], i - 1, opts[0](start).0);
    }
  }

  /** The options LoadEnvs passes set exactly the flag values, and do not panic. */
  lemma PathThenFilename(path: string, filename: string)
    ensures ApplyOptions([WithPath(path), WithFilename(filename)], Location("", ""))
            == (Location(path, filename), None)
  {
    var opts := [WithPath(path), WithFilename(filename)];
    assert opts[0](Location("", "")) == (Location(path, ""), None);
    assert opts[1..] == [WithFilename(filename)];
    assert opts[1..][0](Location(path, "")) == (Location(path, filename), None);
    assert opts[1..][1..] == [];
    assert ApplyOptions(opts[1..], Location(path, "")) == (Location(path, filename), None);
  }

  // ----- LoadEnvs -----

  /** `sub` occurs in `s` starting at index `i`. */
  predicate OccursAt(s: string, sub: string, i: nat)
  {
    i + |sub| <= |s| && s[i..i + |sub|] == sub
  }

  lemma OccursAtStart(s: string, sub: string)
    ensures OccursAt(s, sub, 0) <==> sub <= s
  {
  }

  lemma OccursAtShift(s: string, sub: string, j: nat)
    requires s != []
    ensures OccursAt(s[1..], sub, j) <==> OccursAt(s, sub, j + 1)
  {
  }

  /** strings.Contains: `sub` occurs somewhere in `s`. */
  function Contains(s: string, sub: string): (r: bool)
    ensures r <==> exists i: nat :: OccursAt(s, sub, i)
    decreases |s|
  {
    OccursAtStart(s, sub);
    if sub <= s then true
    else if s == [] then false
    else
      var r := Contains(s[1..], sub);
      assert r ==> exists i: nat :: OccursAt(s, sub, i) by {
        if r {
          var j: nat :| OccursAt(s[1..], sub, j);
          OccursAtShift(s, sub, j);
        }
      }
      assert (exists i: nat :: OccursAt(s, sub, i)) ==> r by {
        if exists i: nat :: OccursAt(s, sub, i) {
          var i: nat :| OccursAt(s, sub, i);
          if i > 0 {
            OccursAtShift(s, sub, i - 1);
          }
        }
      }
      r
  }

  /** An argument that names one of the two configuration flags. */
  predicate ConfigFlagArg(arg: string)
  {
    Contains(arg, "config_path") || Contains(arg, "config_filename")
  }

  /** The arguments that do not mention either configuration flag, in their order. */
  function KeptArgs(args: seq<string>): (kept: seq<string>)
  {
    if args == [] then [] else (if ConfigFlagArg(args[0]) then [] else [args[0]]) + KeptArgs(args[1..])
  }

  lemma {:induction false} KeptArgsConcat(a: seq<string>, b: seq<string>)
    ensures KeptArgs(a + b) == KeptArgs(a) + KeptArgs(b)
  {
    if a == [] {
      assert a + b == b;
    } else {
      assert (a + b)[1..] == a[1..] + b;
      KeptArgsConcat(a[1..], b);
    }
  }

  /** An argument is kept exactly when it is one of the arguments and names neither flag. */
  lemma {:induction false} KeptArgsMembers(args: seq<string>)
    ensures forall x :: x in KeptArgs(args) <==> x in args && !ConfigFlagArg(x)
    ensures |KeptArgs(args)| <= |args|
  {
    if args != [] {
      KeptArgsMembers(args[1..]);
      assert args == [args[0]] + args[1..];
    }
  }

  /** Filtering twice filters nothing more. */
  lemma {:induction false} KeptArgsIdempotent(args: seq<string>)
    ensures KeptArgs(KeptArgs(args)) == KeptArgs(args)
  {
    if args != [] {
      KeptArgsIdempotent(args[1..]);
      var head := if ConfigFlagArg(args[0]) then [] else [args[0]];
      KeptArgsConcat(head, KeptArgs(args[1..]));
      if !ConfigFlagArg(args[0]) {
        assert [args[0]][1..] == [];
      }
    }
  }

  /** logCfg: the configuration file's location as shown at start-up. */
  function ConfigLocation(path: string, filename: string): (r: string)
    ensures |r| == |path| + |filename| + (if path == "./" then 0 else 1)
    ensures path <= r && r[|r| - |filename|..] == filename
    ensures path != "./" ==> r[|path|] == '/'
  {
    if path == "./" then path + filename else path + "/" + filename
  }

  /**
   * LoadEnvs: the program's arguments without those that mention a
   * configuration flag, and the location it announces. The configuration it
   * builds from the flags is handed to Initialize, which is not modelled.
   */
  method LoadEnvs(args: seq<string>, configPath: string, configFilename: string)
    returns (newArgs: seq<string>, logCfg: string)
    ensures newArgs == KeptArgs(args)
    ensures logCfg == ConfigLocation(configPath, configFilename)
  {
    if configPath == "./" {
      logCfg := configPath + configFilename;
    } else {
      logCfg := configPath + "/" + configFilename;
    }
    var c, _ := Configuration([WithPath(configPath), WithFilename(configFilename)]);
    newArgs := [];
    var i := 0;
    while i < |args|
      invariant 0 <= i <= |args|
      invariant newArgs == KeptArgs(args[..i])
    {
      KeptArgsConcat(args[..i], [args[i]]);
      assert args[..i + 1] == args[..i] + [args[i]];
      var arg := args[i];
      i := i + 1;
      if Contains(arg, "config_path") || Contains(arg, "config_filename") {
        continue;
      }
      newArgs := newArgs + [arg];
    }
    assert args[..i] == args;
  }
}

=== FILE: enrolment.dfy ===
/**
 * Adding a user account, as both the authentication service's Register and
 * the user service's Create do it: refuse an e-mail that a live user already
 * has, hash the password, insert the user with a fresh id and the default
 * role, and answer with id, e-mail and role.
 *
 * `Enrol` is the specification of that flow over the table's rows; the two
 * service methods are proved to behave as it says.
 */
module Enrolment {
  import opened Errors
  import opened Users
  import opened UserRepo

  /** The answer and the table afterwards. */
  datatype Outcome = Outcome(result: Result<UserResponse>, users: seq<UserRow>)

  predicate Taken(users: seq<UserRow>, email: string)
  {
    exists row :: row in users && Selects(row, ByEmail(email))
  }

  function Enrol(users: seq<UserRow>, email: string, existsFault: RowFault, hashed: Result<string>,
                 newId: string, exec: ExecOutcome): (o: Outcome)
    ensures existsFault.RowFails? ==>
              o == Outcome(Err(Custom(500, "Failed to check user existence")), users)
    ensures existsFault.RowHealthy? && Taken(users, email) ==>
              o == Outcome(Err(FieldError(409, "email", "Email sudah terdaftar")), users)
    ensures existsFault.RowHealthy? && !Taken(users, email) && hashed.Err? ==>
              o == Outcome(Err(Custom(500, "Gagal mengenkripsi password")), users)
    ensures existsFault.RowHealthy? && !Taken(users, email) && hashed.Ok? ==>
              && (o.result.Ok? <==> exec == Executed(Ok(1)))
              && (o.result.Err? ==> o.result.error == Custom(500, "Failed to create user"))
              && o.users == if Inserted(exec) then users + [UserRow(newId, email, hashed.value, DefaultRole, None)]
                            else users
    ensures o.result.Ok? ==> o.result.value == UserResponse(newId, email, DefaultRole)
  {
    match ExistsByEmail(users, email, existsFault)
    case Err(e) => Outcome(Err(e), users)
    case Ok(existing) =>
      if existing then Outcome(Err(FieldError(409, "email", "Email sudah terdaftar")), users)
      else if hashed.Err? then Outcome(Err(Custom(500, "Gagal mengenkripsi password")), users)
      else
        var user := UserDB(newId, email, hashed.value, DefaultRole);
        match exec
        case ExecFails(_) => Outcome(Err(Custom(500, "Failed to create user")), users)
        case Executed(affected) =>
          var users' := if affected == Ok(0) then users else users + [NewRow(user)];
          if affected == Ok(1) then Outcome(Ok(ToResponse(user)), users')
          else Outcome(Err(Custom(500, "Failed to create user")), users')
  }

  /** Whatever happens, no two live users end up sharing an e-mail address. */
  lemma EnrolKeepsEmailsUnique(users: seq<UserRow>, email: string, existsFault: RowFault,
                               hashed: Result<string>, newId: string, exec: ExecOutcome)
    requires UniqueLiveEmails(users)
    ensures UniqueLiveEmails(Enrol(users, email, existsFault, hashed, newId, exec).users)
  {
    if existsFault.RowHealthy? && !Taken(users, email) && hashed.Ok? && Inserted(exec) {
      AppendKeepsUniqueEmails(users, UserRow(newId, email, hashed.value, DefaultRole, None));
    }
  }

  lemma FirstSelectedAppend(rows: seq<UserRow>, row: UserRow, key: Key)
    requires forall r :: r in rows ==> !Selects(r, key)
    ensures FirstSelected(rows + [row], key) == if Selects(row, key) then Some(row) else None
  {
  }

  /**
   * After a successful enrolment, looking the e-mail up finds exactly the
   * user that was added, with the hashed password and the default role.
   */
  lemma EnrolledUserFound(users: seq<UserRow>, email: string, hashed: Result<string>,
                          newId: string, exec: ExecOutcome)
    requires Enrol(users, email, RowHealthy, hashed, newId, exec).result.Ok?
    ensures FindByEmail(Enrol(users, email, RowHealthy, hashed, newId, exec).users, email, RowHealthy)
            == Ok(UserDB(newId, email, hashed.value, DefaultRole))
  {
    var row := UserRow(newId, email, hashed.value, DefaultRole, None);
    FirstSelectedAppend(users, row, ByEmail(email));
  }

  /** Enrolment never removes or alters a row that was there before. */
  lemma EnrolOnlyAppends(users: seq<UserRow>, email: string, existsFault: RowFault,
                         hashed: Result<string>, newId: string, exec: ExecOutcome)
    ensures var o := Enrol(users, email, existsFault, hashed, newId, exec);
            && users <= o.users && |o.users| <= |users| + 1
            && (o.result.Ok? ==> |o.users| == |users| + 1)
  {
  }
}

=== FILE: errors.dfy ===
/**
 * Error values shared by every component.
 *
 * A Go function returning `(value, error)` is modelled as returning a
 * `Result`: `Ok(v)` is `(v, nil)` and `Err(e)` is `(zero value, e)`.
 */
module Errors {

  datatype Option<T> = None | Some(value: T)

  datatype Result<T> = Ok(value: T) | Err(error: Error)

  /** The reasons golang-jwt v5 gives for refusing a token. */
  datatype JwtFailure =
    | TokenMalformed
    | TokenSignatureInvalid
      // claims validation failed; the flags say which time check failed
    | TokenInvalidClaims(expired: bool, notValidYet: bool)

  datatype Error =
      // errmsg.NewCustomErrors(code, errmsg.WithMessage(message))
    | Custom(code: int, message: string)
      // errmsg.NewCustomErrors(code, errmsg.WithErrors(field, message))
    | FieldError(code: int, field: string, message: string)
      // an error returned by the JWT library
    | Jwt(failure: JwtFailure)
      // an error value produced by the SQL driver or another library and
      // handed on unchanged; `tag` tells such values apart
    | External(tag: string)

  const UserNotFound: string := "User tidak ditemukan!"
}

=== FILE: jwt.dfy ===
/**
 * Token claims construction and validation (package jwthandler).
 *
 * A token carries CustomClaims: the user's id and role plus the registered
 * claims iss, sub, iat, nbf and exp of RFC 7519 (sections 4.1.1, 4.1.2,
 * 4.1.6, 4.1.5, 4.1.4). It is signed with HS256 (section 3.2 of RFC 7518)
 * under the configured secret. Time is integer seconds since the epoch.
 *
 * HMAC-SHA256 is replaced by `Hs256`, a collision-free stand-in: equal tags
 * come only from equal keys over equal input, so a token verifies only under
 * the secret it was signed with. Secrecy of the key is not modelled.
 */
module Jwt {
  import opened Errors
  import opened TokenText

  /** The two subject kinds (TokenType). */
  const AccessToken: string := "access_token"
  const RefreshToken: string := "refresh_token"

  const SecondsPerHour: int := 3600

  /** The configuration values that token issuing and checking read. */
  datatype Settings = Settings(appName: string, jwtSecret: string, jwtTtlHours: int, jwtRefreshTtlDays: int)

  datatype Payload = Payload(id: string, role: string, subject: string, expirationHours: int)

  /** CustomClaims with the registered claims that GenerateToken fills in. */
  datatype Claims = Claims(id: string, role: string, issuer: string, subject: string,
                           issuedAt: int, notBefore: int, expiresAt: int)

  /** What the signing library does; when it fails, the model does not say why. */
  datatype SignOutcome = Signs | SignFails(err: Error)

  lemma SubjectKindsDistinct()
    ensures AccessToken != RefreshToken
  {
  }

  // ----- token text -----

  function Fields(xs: seq<string>): string
  {
    if xs == [] then [] else Field(xs[0]) + Fields(xs[1..])
  }

  /** Reads `n` consecutive fields from the front of `s`. */
  function ReadFields(s: string, n: nat): (r: Option<(seq<string>, string)>)
    ensures r.Some? ==> |r.value.0| == n
    decreases n
  {
    if n == 0 then Some(([], s))
    else match ReadField(s)
      case None => None
      case Some(p) =>
        match ReadFields(p.1, n - 1)
        case None => None
        case Some(q) => Some(([p.0] + q.0, q.1))
  }

  lemma {:induction false} ReadFieldsOfFields(xs: seq<string>, rest: string)
    ensures ReadFields(Fields(xs) + rest, |xs|) == Some((xs, rest))
  {
    if xs == [] {
      assert Fields(xs) + rest == rest;
    } else {
      assert Fields(xs) + rest == Field(xs[0]) + (Fields(xs[1..]) + rest);
      ReadFieldOfField(xs[0], Fields(xs[1..]) + rest);
      ReadFieldsOfFields(xs[1..], rest);
      assert [xs[0]] + xs[1..] == xs;
    }
  }

  function ClaimFields(c: Claims): seq<string>
  {
    [c.id, c.role, c.issuer, c.subject, IntText(c.issuedAt), IntText(c.notBefore), IntText(c.expiresAt)]
  }

  /** The payload segment of a token. */
  function EncodeClaims(c: Claims): string
  {
    Fields(ClaimFields(c))
  }

  function DecodeClaims(s: string): Option<Claims>
  {
    match ReadFields(s, 7)
    case None => None
    case Some(p) =>
      var fs := p.0;
      var iat, nbf, exp := ParseInt(fs[4]), ParseInt(fs[5]), ParseInt(fs[6]);
      if p.1 != [] || iat.None? || nbf.None? || exp.None? then None
      else Some(Claims(fs[0], fs[1], fs[2], fs[3], iat.value, nbf.value, exp.value))
  }

  lemma DecodeEncodeClaims(c: Claims)
    ensures DecodeClaims(EncodeClaims(c)) == Some(c)
  {
    ReadFieldsOfFields(ClaimFields(c), []);
    assert EncodeClaims(c) + [] == EncodeClaims(c);
    ParseIntText(c.issuedAt);
    ParseIntText(c.notBefore);
    ParseIntText(c.expiresAt);
  }

  /** Stand-in for HMAC-SHA256 over the signing input under `key`. */
  function Hs256(key: string, input: string): string
  {
    Field(key) + input
  }

  /** Equal tags over the same input come from the same key. */
  lemma Hs256KeyInjective(k1: string, k2: string, input: string)
    requires Hs256(k1, input) == Hs256(k2, input)
    ensures k1 == k2
  {
    FieldPrefixInjective(k1, k2, input, input);
  }

  /** A token: payload segment then signature segment. */
  function SignedToken(payload: string, signature: string): string
  {
    Field(payload) + Field(signature)
  }

  function SplitToken(token: string): Option<(string, string)>
  {
    match ReadField(token)
    case None => None
    case Some(p) =>
      match ReadField(p.1)
      case None => None
      case Some(q) => if q.1 == [] then Some((p.0, q.0)) else None
  }

  lemma SplitSignedToken(payload: string, signature: string)
    ensures SplitToken(SignedToken(payload, signature)) == Some((payload, signature))
  {
    ReadFieldOfField(payload, Field(signature));
    ReadFieldOfField(signature, []);
    assert Field(signature) + [] == Field(signature);
  }

  lemma SplitTokenInverse(token: string)
    requires SplitToken(token).Some?
    ensures token == SignedToken(SplitToken(token).value.0, SplitToken(token).value.1)
  {
    ReadFieldInverse(token);
    var p := ReadField(token).value;
    ReadFieldInverse(p.1);
  }

  // ----- GenerateToken and ParseToken -----

  /** The claims GenerateToken builds for `p` at time `now`. */
  function IssuedClaims(p: Payload, issuer: string, now: int): Claims
  {
    Claims(p.id, p.role, issuer, p.subject, now, now, now + p.expirationHours * SecondsPerHour)
  }

  /**
   * GenerateToken: a signed token on success; on a signing failure the
   * library's error, handed on unchanged, and no token.
   */
  function GenerateToken(p: Payload, cfg: Settings, now: int, signing: SignOutcome): (r: Result<string>)
    ensures r.Ok? <==> signing.Signs?
    ensures r.Err? ==> r.error == signing.err
    ensures r.Ok? ==> |r.value| > 0
  {
    match signing
    case SignFails(e) => Err(e)
    case Signs =>
      var payload := EncodeClaims(IssuedClaims(p, cfg.appName, now));
      Ok(SignedToken(payload, Hs256(cfg.jwtSecret, payload)))
  }

  /**
   * ParseToken: golang-jwt v5 checks that the token is well formed, then its
   * signature under `secret`, then exp (valid while now < exp) and nbf (valid
   * once now >= nbf). iat is not checked.
   */
  function ParseToken(token: string, secret: string, now: int): (r: Result<Claims>)
    ensures r.Err? ==> r.error.Jwt?
    ensures r.Ok? ==> r.value.notBefore <= now < r.value.expiresAt
  {
    match SplitToken(token)
    case None => Err(Jwt(TokenMalformed))
    case Some(parts) =>
      match DecodeClaims(parts.0)
      case None => Err(Jwt(TokenMalformed))
      case Some(c) =>
        if parts.1 != Hs256(secret, parts.0) then Err(Jwt(TokenSignatureInvalid))
        else if now >= c.expiresAt || now < c.notBefore then
          Err(Jwt(TokenInvalidClaims(now >= c.expiresAt, now < c.notBefore)))
        else Ok(c)
  }

  /**
   * Round trip: a token generated at `now` parses under the same secret at
   * any time in [nbf, exp), to the claims GenerateToken built.
   */
  lemma GeneratedTokenParses(p: Payload, cfg: Settings, now: int, t: int)
    requires now <= t < now + p.expirationHours * SecondsPerHour
    ensures var r := ParseToken(GenerateToken(p, cfg, now, Signs).value, cfg.jwtSecret, t);
            && r.Ok?
            && r.value.id == p.id && r.value.role == p.role && r.value.subject == p.subject
            && r.value.issuer == cfg.appName
            && r.value.issuedAt == now && r.value.notBefore == now
            && r.value.expiresAt == now + p.expirationHours * SecondsPerHour
  {
    var payload := EncodeClaims(IssuedClaims(p, cfg.appName, now));
    SplitSignedToken(payload, Hs256(cfg.jwtSecret, payload));
    DecodeEncodeClaims(IssuedClaims(p, cfg.appName, now));
  }

  /** A generated token is refused before its nbf and from its exp on. */
  lemma GeneratedTokenExpires(p: Payload, cfg: Settings, now: int, t: int)
    requires t < now || now + p.expirationHours * SecondsPerHour <= t
    ensures ParseToken(GenerateToken(p, cfg, now, Signs).value, cfg.jwtSecret, t)
            == Err(Jwt(TokenInvalidClaims(now + p.expirationHours * SecondsPerHour <= t, t < now)))
  {
    var payload := EncodeClaims(IssuedClaims(p, cfg.appName, now));
    SplitSignedToken(payload, Hs256(cfg.jwtSecret, payload));
    DecodeEncodeClaims(IssuedClaims(p, cfg.appName, now));
  }

  /** A generated token is refused, at any time, under any other secret. */
  lemma ForeignSecretRejected(p: Payload, cfg: Settings, now: int, secret: string, t: int)
    requires secret != cfg.jwtSecret
    ensures ParseToken(GenerateToken(p, cfg, now, Signs).value, secret, t) == Err(Jwt(TokenSignatureInvalid))
  {
    var payload := EncodeClaims(IssuedClaims(p, cfg.appName, now));
    SplitSignedToken(payload, Hs256(cfg.jwtSecret, payload));
    DecodeEncodeClaims(IssuedClaims(p, cfg.appName, now));
    if Hs256(cfg.jwtSecret, payload) == Hs256(secret, payload) {
      Hs256KeyInjective(cfg.jwtSecret, secret, payload);
    }
  }

  /**
   * `token` is accepted under `secret` exactly at the times in [from, until),
   * and always for the user `id` with `role` and the subject kind `subject`.
   */
  ghost predicate Grants(token: string, secret: string, id: string, role: string, subject: string,
                         from: int, until: int)
  {
    forall t :: var r := ParseToken(token, secret, t);
      && (r.Ok? <==> from <= t < until)
      && (r.Ok? ==> r.value.id == id && r.value.role == role && r.value.subject == subject)
  }

  /** A generated token grants its payload for exactly its lifetime. */
  lemma GeneratedTokenGrants(p: Payload, cfg: Settings, now: int)
    ensures Grants(GenerateToken(p, cfg, now, Signs).value, cfg.jwtSecret, p.id, p.role, p.subject,
                   now, now + p.expirationHours * SecondsPerHour)
  {
    var until := now + p.expirationHours * SecondsPerHour;
    forall t
      ensures var r := ParseToken(GenerateToken(p, cfg, now, Signs).value, cfg.jwtSecret, t);
              && (r.Ok? <==> now <= t < until)
              && (r.Ok? ==> r.value.id == p.id && r.value.role == p.role && r.value.subject == p.subject)
    {
      if now <= t < until {
        GeneratedTokenParses(p, cfg, now, t);
      } else {
        GeneratedTokenExpires(p, cfg, now, t);
      }
    }
  }

  /**
   * Whatever ParseToken accepts under `secret` is a payload carrying the
   * returned claims, signed under `secret`.
   */
  lemma AcceptedTokenIsSigned(token: string, secret: string, now: int)
    requires ParseToken(token, secret, now).Ok?
    ensures exists payload :: token == SignedToken(payload, Hs256(secret, payload))
                              && DecodeClaims(payload) == Some(ParseToken(token, secret, now).value)
  {
    SplitTokenInverse(token);
    var payload := SplitToken(token).value.0;
    assert token == SignedToken(payload, Hs256(secret, payload));
  }
}

=== FILE: middleware.dfy ===
/**
 * Per-request middleware: the bearer-token check (AuthBearer), the identity
 * getters, and the role gate (AuthRole), in their echo and fiber variants.
 *
 * A request is a context object: its Authorization header, the values the
 * handlers stored in it (echo's c.Set, fiber's c.Locals), and how many times
 * the next handler has been called. A middleware either rejects the request
 * with a status and message, leaving the context as it was, or passes it on
 * to the next handler exactly once.
 */
module Middleware {
  import opened Errors
  import opened Jwt

  const BearerPrefix: string := "Bearer "
  const UserIdKey: string := "user_id"
  const RoleKey: string := "role"

  const Unauthorized: string := "Unauthorized"
  const RoleNotAllowed: string := "Terlarang: role anda tidak diizinkan untuk mengakses resource ini"

  /** A value stored in the request context: a string, or a value of any other type. */
  datatype Local = Str(s: string) | NonString

  /** What the middleware did with the request. */
  datatype Response = Rejected(status: int, message: string) | Forwarded

  datatype Framework = Echo | Fiber

  class RequestContext {
    const header: string
    var locals: map<string, Local>
    var nextCalls: nat

    constructor (header: string, locals: map<string, Local>)
      ensures this.header == header && this.locals == locals && nextCalls == 0
    {
      this.header := header;
      this.locals := locals;
      nextCalls := 0;
    }
  }

  // ----- AuthBearer -----

  /**
   * The token in an Authorization header: the header with its one leading
   * "Bearer " removed; None when the header is empty or lacks that prefix.
   */
  function BearerToken(header: string): (r: Option<string>)
    ensures r.Some? <==> BearerPrefix <= header
    ensures r.Some? ==> header == BearerPrefix + r.value
  {
    if header == "" || !(BearerPrefix <= header) then None
    else
      assert header == BearerPrefix + header[|BearerPrefix|..];
      Some(header[|BearerPrefix|..])
  }

  /** The claims AuthBearer accepts for `header` at time `now`, if any. */
  function Authenticate(header: string, secret: string, now: int): (r: Option<Claims>)
    ensures r.Some? <==> exists token :: header == BearerPrefix + token && ParseToken(token, secret, now).Ok?
    ensures r.Some? ==> ParseToken(BearerToken(header).value, secret, now) == Ok(r.value)
    ensures r.Some? ==> r.value.notBefore <= now < r.value.expiresAt
  {
    match BearerToken(header)
    case None => None
    case Some(token) =>
      match ParseToken(token, secret, now)
      case Err(_) => None
      case Ok(claims) => Some(claims)
  }

  /** The context values after a successful check: user_id and role from the claims. */
  function Identify(locals: map<string, Local>, claims: Claims): map<string, Local>
  {
    locals[UserIdKey := Str(claims.id)][RoleKey := Str(claims.role)]
  }

  /**
   * AuthBearer: a header without a valid bearer token gets 401 and the
   * request stops there; otherwise the token's id and role are stored and
   * the next handler is called once. The token's subject kind is not looked at.
   */
  method AuthBearer(c: RequestContext, secret: string, now: int) returns (resp: Response)
    modifies c
    ensures var claims := Authenticate(c.header, secret, now);
            && (claims.None? ==> resp == Rejected(401, Unauthorized) && unchanged(c))
            && (claims.Some? ==> resp == Forwarded && c.locals == Identify(old(c.locals), claims.value)
                                 && c.nextCalls == old(c.nextCalls) + 1)
  {
    var token := BearerToken(c.header);
    if token.None? {
      return Rejected(401, Unauthorized);
    }
    var claims := ParseToken(token.value, secret, now);
    if claims.Err? {
      return Rejected(401, Unauthorized);
    }
    c.locals := c.locals[UserIdKey := Str(claims.value.id)];
    c.locals := c.locals[RoleKey := Str(claims.value.role)];
    c.nextCalls := c.nextCalls + 1;
    resp := Forwarded;
  }

  // ----- context getters -----

  /** A string stored under `key`; "" when there is none or it is not a string. */
  function StringLocal(locals: map<string, Local>, key: string): (s: string)
    ensures key in locals && locals[key].Str? ==> s == locals[key].s
    ensures key !in locals || locals[key].NonString? ==> s == ""
  {
    if key in locals && locals[key].Str? then locals[key].s else ""
  }

  /** GetUserIDFromContext. */
  function GetUserId(c: RequestContext): (id: string)
    reads c
    ensures UserIdKey !in c.locals ==> id == ""
    ensures UserIdKey in c.locals && c.locals[UserIdKey].Str? ==> id == c.locals[UserIdKey].s
    ensures UserIdKey in c.locals && c.locals[UserIdKey].NonString? ==> id == ""
  {
    StringLocal(c.locals, UserIdKey)
  }

  /** GetRoleFromContext. */
  function GetRole(c: RequestContext): (role: string)
    reads c
    ensures RoleKey !in c.locals ==> role == ""
    ensures RoleKey in c.locals && c.locals[RoleKey].Str? ==> role == c.locals[RoleKey].s
    ensures RoleKey in c.locals && c.locals[RoleKey].NonString? ==> role == ""
  {
    StringLocal(c.locals, RoleKey)
  }

  /** After AuthBearer lets a request through, the getters read back the token's id and role. */
  lemma IdentityReadBack(locals: map<string, Local>, claims: Claims)
    ensures StringLocal(Identify(locals, claims), UserIdKey) == claims.id
    ensures StringLocal(Identify(locals, claims), RoleKey) == claims.role
    ensures forall k :: k in locals && k != UserIdKey && k != RoleKey ==> Identify(locals, claims)[k] == locals[k]
  {
  }

  /**
   * A token that grants a user and role for [from, until) passes AuthBearer
   * with that identity at any time in that window, whatever its subject kind:
   * a refresh token is let through like an access token.
   */
  lemma GrantedTokenAuthenticates(token: string, secret: string, id: string, role: string, subject: string,
                                  from: int, until: int, now: int)
    requires Grants(token, secret, id, role, subject, from, until)
    requires from <= now < until
    ensures var r := Authenticate(BearerPrefix + token, secret, now);
            r.Some? && r.value.id == id && r.value.role == role && r.value.subject == subject
  {
  }

  /** A header is let through only if its token was signed under the secret. */
  lemma AuthenticatedTokenIsSigned(header: string, secret: string, now: int)
    requires Authenticate(header, secret, now).Some?
    ensures exists payload :: header == BearerPrefix + SignedToken(payload, Hs256(secret, payload))
  {
    var token := BearerToken(header).value;
    AcceptedTokenIsSigned(token, secret, now);
    var payload :| token == SignedToken(payload, Hs256(secret, payload))
                   && DecodeClaims(payload) == Some(ParseToken(token, secret, now).value);
    assert header == BearerPrefix + SignedToken(payload, Hs256(secret, payload));
  }

  // ----- AuthRole -----

  /** The allow-set of a list of roles: its distinct members. */
  function AllowedRoles(roles: seq<string>): set<string>
  {
    set r | r in roles
  }

  /** The loop of AuthRole that fills the lookup map with the authorised roles. */
  method AllowSet(roles: seq<string>) returns (allowed: set<string>)
    ensures forall r :: r in allowed <==> r in roles
    ensures allowed == AllowedRoles(roles)
  {
    allowed := {};
    var i := 0;
    while i < |roles|
      invariant 0 <= i <= |roles|
      invariant forall r :: r in allowed <==> r in roles[..i]
    {
      allowed := allowed + {roles[i]};
      i := i + 1;
    }
    assert roles[..i] == roles;
  }

  /** The 403 message for a request whose context has no string role. */
  function RoleMissing(fw: Framework): string
  {
    match fw
    case Echo => "Terlarang: role tidak ditemukan"
    case Fiber => "Terlarang: role tidak ditemukan dalam context"
  }

  /** The gate's verdict for the value stored under "role", if any. */
  function Decide(allowed: set<string>, fw: Framework, role: Option<Local>): (resp: Response)
    ensures resp.Forwarded? <==> role.Some? && role.value.Str? && role.value.s in allowed
    ensures (role.None? || role.value.NonString?) ==> resp == Rejected(403, RoleMissing(fw))
    ensures role.Some? && role.value.Str? && role.value.s !in allowed ==> resp == Rejected(403, RoleNotAllowed)
  {
    match role
    case Some(Str(r)) => if r in allowed then Forwarded else Rejected(403, RoleNotAllowed)
    case _ => Rejected(403, RoleMissing(fw))
  }

  function RoleLocal(locals: map<string, Local>): Option<Local>
  {
    if RoleKey in locals then Some(locals[RoleKey]) else None
  }

  /** The handler AuthRole returns, with the allow-set it built. */
  class RoleGate {
    const allowed: set<string>
    const framework: Framework

    /** AuthRole(authorizedRoles). */
    constructor (authorizedRoles: seq<string>, fw: Framework)
      ensures allowed == AllowedRoles(authorizedRoles) && framework == fw
    {
      var s := AllowSet(authorizedRoles);
      allowed := s;
      framework := fw;
    }

    /** One request through the gate: the next handler runs exactly when the role is allowed. */
    method Handle(c: RequestContext) returns (resp: Response)
      modifies c
      ensures resp == Decide(allowed, framework, RoleLocal(old(c.locals)))
      ensures c.locals == old(c.locals)
      ensures c.nextCalls == old(c.nextCalls) + (if resp.Forwarded? then 1 else 0)
    {
      resp := Decide(allowed, framework, RoleLocal(c.locals));
      if resp.Forwarded? {
        c.nextCalls := c.nextCalls + 1;
      }
    }
  }

  /** With no authorised roles every request is forbidden. */
  lemma EmptyAllowListForbids(fw: Framework, role: Option<Local>)
    ensures Decide(AllowedRoles([]), fw, role).Rejected?
    ensures Decide(AllowedRoles([]), fw, role).status == 403
  {
  }

  /** Order and repetition in the authorised list do not change the gate. */
  lemma AllowedRolesIgnoreOrder(a: seq<string>, b: seq<string>)
    requires forall r :: r in a <==> r in b
    ensures AllowedRoles(a) == AllowedRoles(b)
  {
  }

  /**
   * AuthBearer then AuthRole: a request that passes the bearer check is let
   * through the gate exactly when the token's role is authorised.
   */
  lemma BearerThenGate(locals: map<string, Local>, claims: Claims, roles: seq<string>, fw: Framework)
    ensures Decide(AllowedRoles(roles), fw, RoleLocal(Identify(locals, claims))).Forwarded?
            <==> claims.role in roles
  {
  }
}

=== FILE: registry.dfy ===
/**
 * The repository registry and its unit of work (RepositoryRegistry).
 *
 * A registry holds the database and, inside a unit of work, the open
 * transaction; repositories it hands out read and write the transaction
 * when there is one and the database otherwise. A transaction works on its
 * own copy of the table, which COMMIT writes back and ROLLBACK discards.
 *
 * The caller's unit of work is a function from the table it sees to the
 * table it leaves and how it ended: returned (a value and an error) or
 * panicked. BEGIN, COMMIT and ROLLBACK failures are parameters.
 */
module RepoRegistry {
  import opened Errors
  import opened Users
  import opened UserRepo

  datatype Ending<T> = Returned(out: Option<T>, err: Option<Error>) | Panicked(value: string)

  /** What one run of the unit of work does. */
  datatype Step<T> = Step(users: seq<UserRow>, ending: Ending<T>)

  datatype TxState = Active | Committed | RolledBack

  /** *sql.Tx: a transaction over `base`, working on its own copy `view`. */
  class Tx {
    const base: Store
    const view: Store
    var state: TxState

    ghost predicate Valid()
    {
      base != view
    }

    /** BEGIN: the copy starts as the database's table. */
    constructor Begin(base: Store)
      ensures this.base == base && fresh(view) && view.users == base.users
      ensures state == Active && Valid()
    {
      this.base := base;
      view := new Store(base.users);
      state := Active;
    }

    /** COMMIT: publishes the copy unless COMMIT fails; the transaction is over either way. */
    method Commit(fails: Option<Error>) returns (err: Option<Error>)
      requires Valid() && state == Active
      modifies this, base
      ensures state == Committed && err == fails
      ensures base.users == if fails.None? then view.users else old(base.users)
    {
      state := Committed;
      if fails.None? {
        base.users := view.users;
      }
      err := fails;
    }

    /** ROLLBACK: the database keeps its table; the transaction is over. */
    method Rollback(fails: Option<Error>) returns (err: Option<Error>)
      requires Valid() && state == Active
      modifies this
      ensures state == RolledBack && err == fails
    {
      state := RolledBack;
      err := fails;
    }
  }

  class Registry {
    const db: Store
    const executor: Tx?

    ghost predicate Valid()
    {
      executor != null ==> executor.base == db && executor.Valid()
    }

    /** NewRepositoryRegistry: a registry outside any transaction. */
    constructor (db: Store)
      ensures this.db == db && executor == null && Valid()
    {
      this.db := db;
      executor := null;
    }

    /** The registry handed to a unit of work: bound to the transaction `tx`. */
    constructor InTransaction(db: Store, tx: Tx)
      requires tx.base == db && tx.Valid()
      ensures this.db == db && executor == tx && Valid()
    {
      this.db := db;
      executor := tx;
    }

    /** The store a repository from this registry reads and writes. */
    function Target(): Store
    {
      if executor != null then executor.view else db
    }

    /** GetUserRepository: bound to the transaction when there is one, else to the database. */
    method GetUserRepository() returns (repo: UserRepository)
      ensures fresh(repo) && repo.db == Target()
    {
      if executor != null {
        repo := new UserRepository(executor.view);
      } else {
        repo := new UserRepository(db);
      }
    }

    /**
     * DoInTransaction. Outside a transaction: BEGIN; if that fails, its error
     * and the unit of work never runs. Otherwise the unit of work runs on the
     * transaction, which then ends exactly once: ROLLBACK on a panic (the
     * panic goes on) or on an error (a ROLLBACK error replaces it), COMMIT
     * on success (a COMMIT error is returned). Inside a transaction: the
     * unit of work runs on that same transaction, with no BEGIN, COMMIT or
     * ROLLBACK.
     */
    method DoInTransaction<T>(work: seq<UserRow> -> Step<T>, beginFails: Option<Error>,
                              rollbackFails: Option<Error>, commitFails: Option<Error>)
      returns (ending: Ending<T>, ghost tx: Tx?)
      requires Valid()
      modifies Target()
      ensures executor == null && beginFails.Some? ==>
                tx == null && ending == Returned(None, beginFails) && db.users == old(db.users)
      ensures executor == null && beginFails.None? ==>
                && tx != null && fresh(tx) && tx.base == db && tx.state != Active
                && var step := work(old(db.users));
                   match step.ending
                   case Panicked(_) =>
                     tx.state == RolledBack && ending == step.ending && db.users == old(db.users)
                   case Returned(out, err) =>
                     if err.Some? then
                       && tx.state == RolledBack && db.users == old(db.users)
                       && ending == Returned(out, if rollbackFails.Some? then rollbackFails else err)
                     else
                       && tx.state == Committed && ending == Returned(out, commitFails)
                       && db.users == if commitFails.None? then step.users else old(db.users)
      ensures executor != null ==>
                && tx == null && db.users == old(db.users)
                && var step := work(old(executor.view.users));
                   ending == step.ending && executor.view.users == step.users
    {
      tx := null;
      if executor != null {
        var step := work(executor.view.users);
        executor.view.users := step.users;
        ending := step.ending;
        return;
      }
      if beginFails.Some? {
        ending := Returned(None, beginFails);
        return;
      }
      var t := new Tx.Begin(db);
      tx := t;
      var registry := new Registry.InTransaction(db, t);
      var target := registry.Target();
      var step := work(target.users);
      target.users := step.users;
      match step.ending {
        case Panicked(_) =>
          var _ := t.Rollback(rollbackFails);
          ending := step.ending;
        case Returned(out, err) =>
          if err.Some? {
            var rErr := t.Rollback(rollbackFails);
            ending := Returned(out, if rErr.Some? then rErr else err);
          } else {
            var cErr := t.Commit(commitFails);
            ending := Returned(out, cErr);
          }
      }
    }
  }
}

=== FILE: token_text.dfy ===
/**
 * A textual stand-in for the compact serialisation of a signed token.
 *
 * A token is a string. Each string-valued part is written as a field: its
 * characters with '.' and '\' escaped by a '\', followed by a '.' that ends
 * the field. Integers are written in decimal. The encoding is injective and
 * can be read back, which is all the token model relies on; it is not
 * base64url.
 */
module TokenText {
  import opened Errors

  function Escape(s: string): string
  {
    if s == [] then []
    else (if s[0] == '.' || s[0] == '\\' then ['\\', s[0]] else [s[0]]) + Escape(s[1..])
  }

  /** The text of one field: `s` escaped, then the terminating '.'. */
  function Field(s: string): string
  {
    Escape(s) + "."
  }

  /**
   * Reads one field from the front of `s`: the unescaped content and the
   * text after its terminator. None when there is no terminator or an
   * escape is not one that `Escape` writes.
   */
  function ReadField(s: string): (r: Option<(string, string)>)
    ensures r.Some? ==> |r.value.1| < |s|
    decreases |s|
  {
    if s == [] then None
    else if s[0] == '.' then Some(([], s[1..]))
    else if s[0] == '\\' then
      if |s| < 2 || !(s[1] == '.' || s[1] == '\\') then None
      else match ReadField(s[2..])
        case None => None
        case Some(p) => Some(([s[1]] + p.0, p.1))
    else match ReadField(s[1..])
      case None => None
      case Some(p) => Some(([s[0]] + p.0, p.1))
  }

  /** Reading a written field gives back its content and leaves the rest untouched. */
  lemma {:induction false} ReadFieldOfField(x: string, rest: string)
    ensures ReadField(Field(x) + rest) == Some((x, rest))
    decreases |x|
  {
    if x == [] {
      assert Field(x) + rest == ['.'] + rest;
    } else {
      ReadFieldOfField(x[1..], rest);
      var head := if x[0] == '.' || x[0] == '\\' then ['\\', x[0]] else [x[0]];
      assert Field(x) + rest == head + (Field(x[1..]) + rest);
      assert [x[0]] + x[1..] == x;
    }
  }

  /** Whatever `ReadField` accepts is a written field followed by the rest. */
  lemma {:induction false} ReadFieldInverse(s: string)
    requires ReadField(s).Some?
    ensures s == Field(ReadField(s).value.0) + ReadField(s).value.1
    decreases |s|
  {
    if s[0] == '.' {
      assert s == ['.'] + s[1..];
    } else if s[0] == '\\' {
      var p := ReadField(s[2..]).value;
      ReadFieldInverse(s[2..]);
      var f := [s[1]] + p.0;
      assert f[0] == s[1] && f[1..] == p.0;
      assert Field(f) == ['\\', s[1]] + Field(p.0);
      assert s == ['\\', s[1]] + s[2..];
    } else {
      var p := ReadField(s[1..]).value;
      ReadFieldInverse(s[1..]);
      var f := [s[0]] + p.0;
      assert f[0] == s[0] && f[1..] == p.0;
      assert Field(f) == [s[0]] + Field(p.0);
      assert s == [s[0]] + s[1..];
    }
  }

  /** Two fields written one after the other can be told apart again. */
  lemma FieldPrefixInjective(x: string, y: string, restX: string, restY: string)
    requires Field(x) + restX == Field(y) + restY
    ensures x == y && restX == restY
  {
    ReadFieldOfField(x, restX);
    ReadFieldOfField(y, restY);
  }

  function DigitChar(d: nat): (c: char)
    requires d < 10
    ensures '0' <= c <= '9'
  {
    ('0' as int + d) as char
  }

  function DigitValue(c: char): (r: Option<nat>)
    ensures r.Some? <==> '0' <= c <= '9'
    ensures r.Some? ==> r.value < 10 && DigitChar(r.value) == c
  {
    if '0' <= c <= '9' then Some(c as int - '0' as int) else None
  }

  /** Decimal digits of `n`, most significant first, without leading zeros. */
  function NatText(n: nat): (s: string)
    ensures |s| > 0 && '0' <= s[0] <= '9'
    decreases n
  {
    if n < 10 then [DigitChar(n)] else NatText(n / 10) + [DigitChar(n % 10)]
  }

  function ParseNat(s: string): Option<nat>
    decreases |s|
  {
    if s == [] then None
    else
      var d := DigitValue(s[|s| - 1]);
      if d.None? then None
      else if |s| == 1 then d
      else match ParseNat(s[..|s| - 1])
        case None => None
        case Some(m) => Some(m * 10 + d.value)
  }

  function IntText(i: int): string
  {
    if i < 0 then "-" + NatText(-i) else NatText(i)
  }

  function ParseInt(s: string): Option<int>
  {
    if |s| > 0 && s[0] == '-' then
      match ParseNat(s[1..])
      case None => None
      case Some(n) => Some(-(n as int))
    else
      match ParseNat(s)
      case None => None
      case Some(n) => Some(n)
  }

  lemma {:induction false} ParseNatText(n: nat)
    ensures ParseNat(NatText(n)) == Some(n)
    decreases n
  {
    var s := NatText(n);
    if n >= 10 {
      ParseNatText(n / 10);
      assert s[..|s| - 1] == NatText(n / 10);
      assert s[|s| - 1] == DigitChar(n % 10);
    }
  }

  /** Decimal text of an integer reads back as that integer. */
  lemma ParseIntText(i: int)
    ensures ParseInt(IntText(i)) == Some(i)
  {
    if i < 0 {
      ParseNatText(-i);
      assert IntText(i)[1..] == NatText(-i);
    } else {
      ParseNatText(i);
    }
  }
}

=== FILE: user_repository.dfy ===
/**
 * The user repository over the `users` table (package psql, UserRepository).
 *
 * What the SQL driver does is given as a parameter: whether a query,
 * a row scan or the row iteration fails, and what an INSERT reports. The
 * single-row lookups are functions of the table the repository is bound
 * to; Get and Create are methods on the repository object.
 */
module UserRepo {
  import opened Errors
  import opened Users

  /** How the driver behaves for the multi-row query of Get. */
  datatype RowsFault = RowsHealthy | QueryFails | ScanFailsAt(index: nat) | IterationFails

  /** How the driver behaves for a single-row query (QueryRowContext and Scan). */
  datatype RowFault = RowHealthy | RowFails(err: Error)

  /** What the driver reports for the INSERT: an error, or success with a rows-affected report. */
  datatype ExecOutcome = ExecFails(err: Error) | Executed(rowsAffected: Result<int>)

  /**
   * Whether the single-row INSERT changed the table: the statement ran and
   * the driver did not report zero affected rows.
   */
  predicate Inserted(exec: ExecOutcome)
  {
    exec.Executed? && exec.rowsAffected != Ok(0)
  }

  /** The error Get returns, if any, when the query yields `count` rows. */
  function GetFailure(count: nat, fault: RowsFault): Option<Error>
  {
    match fault
    case RowsHealthy => None
    case QueryFails => Some(Custom(500, "Failed to get users"))
    case ScanFailsAt(k) => if k < count then Some(Custom(500, "Failed to scan user")) else None
    case IterationFails => Some(Custom(500, "Rows error"))
  }

  /**
   * GetById: the first live row with this id; 404 UserNotFound when there is
   * none; any driver failure becomes a 500.
   */
  function GetById(users: seq<UserRow>, id: string, fault: RowFault): (r: Result<UserDB>)
    ensures fault.RowFails? ==> r == Err(Custom(500, "Failed to get user by ID"))
    ensures fault.RowHealthy? ==> (r.Err? <==> forall row :: row in users ==> !Selects(row, ById(id)))
    ensures fault.RowHealthy? && r.Err? ==> r.error == Custom(404, UserNotFound)
    ensures r.Ok? ==> exists row :: row in users && Selects(row, ById(id)) && r.value == Entity(row)
  {
    match fault
    case RowFails(_) => Err(Custom(500, "Failed to get user by ID"))
    case RowHealthy =>
      match FirstSelected(users, ById(id))
      case None => Err(Custom(404, UserNotFound))
      case Some(row) => Ok(Entity(row))
  }

  /**
   * FindByEmail: the first live row with exactly this e-mail; 404
   * UserNotFound when there is none; any other driver error is returned as is.
   */
  function FindByEmail(users: seq<UserRow>, email: string, fault: RowFault): (r: Result<UserDB>)
    ensures fault.RowFails? ==> r == Err(fault.err)
    ensures fault.RowHealthy? ==> (r.Err? <==> forall row :: row in users ==> !Selects(row, ByEmail(email)))
    ensures fault.RowHealthy? && r.Err? ==> r.error == Custom(404, UserNotFound)
    ensures r.Ok? ==> exists row :: row in users && Selects(row, ByEmail(email)) && r.value == Entity(row)
  {
    match fault
    case RowFails(e) => Err(e)
    case RowHealthy =>
      match FirstSelected(users, ByEmail(email))
      case None => Err(Custom(404, UserNotFound))
      case Some(row) => Ok(Entity(row))
  }

  /** ExistsByEmail: whether a live row has exactly this e-mail; a driver failure becomes a 500. */
  function ExistsByEmail(users: seq<UserRow>, email: string, fault: RowFault): (r: Result<bool>)
    ensures fault.RowFails? ==> r == Err(Custom(500, "Failed to check user existence"))
    ensures fault.RowHealthy? ==> r.Ok? && (r.value <==> exists row :: row in users && Selects(row, ByEmail(email)))
  {
    match fault
    case RowFails(_) => Err(Custom(500, "Failed to check user existence"))
    case RowHealthy => Ok(FirstSelected(users, ByEmail(email)).Some?)
  }

  /** With a healthy driver, ExistsByEmail says true exactly when FindByEmail finds a user. */
  lemma ExistsAgreesWithFind(users: seq<UserRow>, email: string)
    ensures ExistsByEmail(users, email, RowHealthy) == Ok(FindByEmail(users, email, RowHealthy).Ok?)
  {
  }

  class UserRepository {
    const db: Store

    constructor (db: Store)
      ensures this.db == db
    {
      this.db := db;
    }

    /**
     * Get: every live row, in the order the query yields them, or the
     * 500 error of the first driver failure.
     */
    method Get(fault: RowsFault) returns (r: Result<seq<UserDB>>)
      ensures r.Err? <==> GetFailure(|LiveRows(db.users)|, fault).Some?
      ensures r.Err? ==> r.error == GetFailure(|LiveRows(db.users)|, fault).value
      ensures r.Ok? ==> |r.value| == |LiveRows(db.users)|
      ensures r.Ok? ==> forall i :: 0 <= i < |r.value| ==> r.value[i] == Entity(LiveRows(db.users)[i])
    {
      if fault.QueryFails? {
        return Err(Custom(500, "Failed to get users"));
      }
      var rows := LiveRows(db.users);
      var users: seq<UserDB> := [];
      var i := 0;
      while i < |rows|
        invariant 0 <= i <= |rows|
        invariant |users| == i
        invariant forall k :: 0 <= k < i ==> users[k] == Entity(rows[k])
        invariant fault.ScanFailsAt? ==> fault.index >= i
      {
        if fault == ScanFailsAt(i) {
          return Err(Custom(500, "Failed to scan user"));
        }
        users := users + [Entity(rows[i])];
        i := i + 1;
      }
      if fault.IterationFails? {
        return Err(Custom(500, "Rows error"));
      }
      r := Ok(users);
    }

    /**
     * Create: inserts the user with deleted_at NULL. It succeeds only when the
     * driver reports exactly one affected row; every other outcome is a 500.
     * The table gains the row exactly when the INSERT changed it, which may be
     * so even when the count check then fails.
     */
    method Create(user: UserDB, exec: ExecOutcome) returns (err: Option<Error>)
      modifies db
      ensures !Inserted(exec) ==> db.users == old(db.users)
      ensures Inserted(exec) ==> db.users == old(db.users) + [NewRow(user)]
      ensures err.None? <==> exec == Executed(Ok(1))
      ensures err.Some? ==> err.value == Custom(500, "Failed to create user")
    {
      match exec
      case ExecFails(_) =>
        return Some(Custom(500, "Failed to create user"));
      case Executed(affected) =>
        if affected != Ok(0) {
          db.users := db.users + [NewRow(user)];
        }
        if affected.Err? || affected.value != 1 {
          return Some(Custom(500, "Failed to create user"));
        }
        return None;
    }
  }
}

=== FILE: user_service.dfy ===
/**
 * The user service (UserServiceImpl): list users, get one by id, create one.
 * Users leave the service as responses carrying id, e-mail and role; the
 * password never does.
 */
module UserSvc {
  import opened Errors
  import opened Users
  import opened UserRepo
  import opened RepoRegistry
  import opened Enrolment

  datatype UserRequest = UserRequest(email: string, password: string)

  class UserService {
    const repository: Registry

    /** NewUserService. */
    constructor (repository: Registry)
      ensures this.repository == repository
    {
      this.repository := repository;
    }

    /**
     * Get: one response per live user, in the order the repository lists
     * them; a repository error is returned as it is.
     */
    method Get(fault: RowsFault) returns (r: Result<seq<UserResponse>>)
      ensures var rows := LiveRows(repository.Target().users);
              && (r.Err? <==> GetFailure(|rows|, fault).Some?)
              && (r.Err? ==> r.error == GetFailure(|rows|, fault).value)
              && (r.Ok? ==> |r.value| == |rows|
                            && forall i :: 0 <= i < |rows| ==> r.value[i] == ToResponse(Entity(rows[i])))
    {
      var repo := repository.GetUserRepository();
      var users := repo.Get(fault);
      if users.Err? {
        return Err(users.error);
      }
      var responses: seq<UserResponse> := [];
      var i := 0;
      while i < |users.value|
        invariant 0 <= i <= |users.value|
        invariant |responses| == i
        invariant forall k :: 0 <= k < i ==> responses[k] == ToResponse(users.value[k])
      {
        responses := responses + [ToResponse(users.value[i])];
        i := i + 1;
      }
      r := Ok(responses);
    }

    /** GetById: the user's response, or the repository's error as it is. */
    function GetById(id: string, fault: RowFault): (r: Result<UserResponse>)
      reads repository.Target()
      ensures var found := UserRepo.GetById(repository.Target().users, id, fault);
              && (r.Ok? <==> found.Ok?)
              && (r.Err? ==> r.error == found.error)
              && (r.Ok? ==> exists row :: row in repository.Target().users && Selects(row, ById(id))
                                          && r.value == ToResponse(Entity(row)))
    {
      match UserRepo.GetById(repository.Target().users, id, fault)
      case Err(e) => Err(e)
      case Ok(user) => Ok(ToResponse(user))
    }

    /**
     * Create: adds the account as `Enrol` specifies, on the store the
     * registry binds repositories to; nothing else changes.
     */
    method Create(req: UserRequest, existsFault: RowFault, hash: string -> Result<string>, newId: string,
                  exec: ExecOutcome) returns (r: Result<UserResponse>)
      modifies repository.Target()
      ensures var o := Enrol(old(repository.Target().users), req.email, existsFault, hash(req.password), newId, exec);
              r == o.result && repository.Target().users == o.users
    {
      var repo := repository.GetUserRepository();
      var existing := ExistsByEmail(repo.db.users, req.email, existsFault);
      if existing.Err? {
        return Err(existing.error);
      }
      if existing.value {
        return Err(FieldError(409, "email", "Email sudah terdaftar"));
      }
      var hashed := hash(req.password);
      if hashed.Err? {
        return Err(Custom(500, "Gagal mengenkripsi password"));
      }
      var user := UserDB(newId, req.email, hashed.value, DefaultRole);
      var err := repo.Create(user, exec);
      if err.Some? {
        return Err(err.value);
      }
      return Ok(ToResponse(user));
    }
  }
}

=== FILE: users.dfy ===
/**
 * The `users` table and the values read from it.
 *
 * The table is a sequence of rows in storage order. Every query of the
 * repository selects only rows whose deleted_at is NULL, and compares
 * e-mail addresses with `=`, that is exactly.
 */
module Users {
  import opened Errors

  /** A row of the `users` table. */
  datatype UserRow = UserRow(id: string, email: string, password: string, role: string, deletedAt: Option<int>)

  /** entity.UserDB: the four columns the repository writes and reads back. */
  datatype UserDB = UserDB(id: string, email: string, password: string, role: string)

  /** dto.UserResponse and dto.RegisterResponse: a user without the password. */
  datatype UserResponse = UserResponse(id: string, email: string, role: string)

  const DefaultRole: string := "user"

  predicate Live(row: UserRow)
  {
    row.deletedAt.None?
  }

  function Entity(row: UserRow): UserDB
  {
    UserDB(row.id, row.email, row.password, row.role)
  }

  /** The row an INSERT of `u` adds: deleted_at is left NULL. */
  function NewRow(u: UserDB): UserRow
  {
    UserRow(u.id, u.email, u.password, u.role, None)
  }

  function ToResponse(u: UserDB): UserResponse
  {
    UserResponse(u.id, u.email, u.role)
  }

  /** The WHERE clause of a single-row lookup. */
  datatype Key = ById(id: string) | ByEmail(email: string)

  predicate Selects(row: UserRow, key: Key)
  {
    Live(row) && match key
      case ById(id) => row.id == id
      case ByEmail(email) => row.email == email
  }

  /** `WHERE u.deleted_at IS NULL`: the live rows, in storage order. */
  function LiveRows(rows: seq<UserRow>): (r: seq<UserRow>)
    ensures forall row :: row in r <==> row in rows && Live(row)
    ensures |r| <= |rows|
  {
    if rows == [] then []
    else (if Live(rows[0]) then [rows[0]] else []) + LiveRows(rows[1..])
  }

  /** `... LIMIT 1`: the first row in storage order that the key selects. */
  function FirstSelected(rows: seq<UserRow>, key: Key): (r: Option<UserRow>)
    ensures r.Some? ==> r.value in rows && Selects(r.value, key)
    ensures r.None? <==> forall row :: row in rows ==> !Selects(row, key)
  {
    if rows == [] then None
    else if Selects(rows[0], key) then Some(rows[0])
    else FirstSelected(rows[1..], key)
  }

  /** At most one live row per e-mail address. */
  ghost predicate UniqueLiveEmails(rows: seq<UserRow>)
  {
    forall i, j :: 0 <= i < j < |rows| && Live(rows[i]) && Live(rows[j]) ==> rows[i].email != rows[j].email
  }

  /** Adding a live row whose e-mail no live row has keeps e-mails unique. */
  lemma AppendKeepsUniqueEmails(rows: seq<UserRow>, row: UserRow)
    requires UniqueLiveEmails(rows)
    requires forall r :: r in rows ==> !Selects(r, ByEmail(row.email))
    ensures UniqueLiveEmails(rows + [row])
  {
    var rows' := rows + [row];
    forall i, j | 0 <= i < j < |rows'| && Live(rows'[i]) && Live(rows'[j])
      ensures rows'[i].email != rows'[j].email
    {
      if j == |rows| {
        assert rows'[i] in rows;
      }
    }
  }

  /** What a repository reads and writes: the open connection or a transaction. */
  class Store {
    var users: seq<UserRow>

    constructor (users: seq<UserRow>)
      ensures this.users == users
    {
      this.users := users;
    }
  }
}

=== FILE: validate.dfy ===
/**
 * Checking a loaded configuration for required settings (Config.Validate).
 *
 * A configuration is a tree of struct values as reflection sees it: each
 * field has a name, whether it is exported, the value of its `required`
 * tag and a value. Validation walks the tree depth-first in declaration
 * order and reports the first exported field tagged `required:"true"` whose
 * value is the zero value of its kind.
 */
module ConfigValidate {
  import opened Errors

  /**
   * A value by reflection kind. Floats are reduced to whether they are zero;
   * slices, maps and arrays to their length.
   */
  datatype Value =
    | Str(s: string)
    | Bool(b: bool)
    | Int(i: int)
    | Uint(u: nat)
    | Float(isZero: bool)
    | Ptr(target: Option<Value>)
    | Iface(inner: Option<Value>)
    | Collection(length: nat)
    | Struct(fields: seq<Field>)
    | Other

  datatype Field = Field(name: string, exported: bool, requiredTag: string, value: Value)

  /** The zero value of `v`'s kind, where the kind has one that counts as empty. */
  function ZeroOfKind(v: Value): Option<Value>
  {
    match v
    case Str(_) => Some(Str(""))
    case Bool(_) => Some(Bool(false))
    case Int(_) => Some(Int(0))
    case Uint(_) => Some(Uint(0))
    case Float(_) => Some(Float(true))
    case Ptr(_) => Some(Ptr(None))
    case Iface(_) => Some(Iface(None))
    case Collection(_) => Some(Collection(0))
    case Struct(_) => None
    case Other => None
  }

  /**
   * isEmptyValue: the empty string, false, a zero number, a nil pointer or
   * interface, a collection of length zero. A struct or a value of any other
   * kind is never empty.
   */
  function IsEmptyValue(v: Value): (r: bool)
    ensures r <==> ZeroOfKind(v) == Some(v)
    ensures v.Struct? || v.Other? ==> !r
  {
    match v
    case Str(s) => s == ""
    case Bool(b) => !b
    case Int(i) => i == 0
    case Uint(u) => u == 0
    case Float(z) => z
    case Ptr(t) => t.None?
    case Iface(x) => x.None?
    case Collection(n) => n == 0
    case Struct(_) => false
    case Other => false
  }

  /** A field value validation descends into: a struct, or a non-nil pointer to one. */
  predicate Nested(v: Value)
  {
    v.Struct? || (v.Ptr? && v.target.Some? && v.target.value.Struct?)
  }

  function Required(f: Field): bool
  {
    f.requiredTag == "true"
  }

  function MissingMessage(path: string): string
  {
    "field '" + path + "' is required but not set"
  }

  /**
   * validateStruct: a pointer is followed once; anything but a struct is
   * valid. The result is the message of the first missing field, if any.
   */
  function ValidateStruct(v: Value, prefix: string): (r: Option<string>)
    decreases v, 1
  {
    match v
    case Ptr(Some(Struct(fields))) => ValidateFields(fields, prefix)
    case Struct(fields) => ValidateFields(fields, prefix)
    case _ => None
  }

  /** The loop of validateStruct over the fields, from the first on. */
  function ValidateFields(fields: seq<Field>, prefix: string): (r: Option<string>)
    decreases fields, 0
  {
    if fields == [] then None
    else
      var f := fields[0];
      if !f.exported then ValidateFields(fields[1..], prefix)
      else if Required(f) && IsEmptyValue(f.value) then Some(MissingMessage(prefix + f.name))
      else if Nested(f.value) then
        match ValidateStruct(f.value, prefix + f.name + ".")
        case Some(e) => Some(e)
        case None => ValidateFields(fields[1..], prefix)
      else ValidateFields(fields[1..], prefix)
  }

  /** Config.Validate: validation starts at a pointer to the configuration struct, with no prefix. */
  function Validate(config: seq<Field>): (r: Option<string>)
    ensures r == ValidateFields(config, "")
  {
    ValidateStruct(Ptr(Some(Struct(config))), "")
  }

  // ----- reference: every missing field -----

  /** The dotted paths of all exported required fields that are empty, depth-first in declaration order. */
  function Missing(v: Value, prefix: string): seq<string>
    decreases v, 1
  {
    match v
    case Ptr(Some(Struct(fields))) => MissingFields(fields, prefix)
    case Struct(fields) => MissingFields(fields, prefix)
    case _ => []
  }

  function MissingFields(fields: seq<Field>, prefix: string): seq<string>
    decreases fields, 0
  {
    if fields == [] then []
    else
      var f := fields[0];
      var here := if f.exported && Required(f) && IsEmptyValue(f.value) then [prefix + f.name] else [];
      var below := if f.exported && Nested(f.value) then Missing(f.value, prefix + f.name + ".") else [];
      here + below + MissingFields(fields[1..], prefix)
  }

  /** What validation answers, given every missing field: the first of them, or nothing. */
  function FirstMissing(paths: seq<string>): Option<string>
  {
    if paths == [] then None else Some(MissingMessage(paths[0]))
  }

  /**
   * validateStruct reports the first missing field of the whole tree, and
   * reports nothing exactly when no field is missing.
   */
  lemma {:induction false} ValidateStructReportsFirstMissing(v: Value, prefix: string)
    ensures ValidateStruct(v, prefix) == FirstMissing(Missing(v, prefix))
    decreases v, 1
  {
    match v
    case Ptr(Some(Struct(fields))) => ValidateFieldsReportsFirstMissing(fields, prefix);
    case Struct(fields) => ValidateFieldsReportsFirstMissing(fields, prefix);
    case _ =>
  }

  lemma {:induction false} ValidateFieldsReportsFirstMissing(fields: seq<Field>, prefix: string)
    ensures ValidateFields(fields, prefix) == FirstMissing(MissingFields(fields, prefix))
    decreases fields, 0
  {
    if fields != [] {
      var f := fields[0];
      ValidateFieldsReportsFirstMissing(fields[1..], prefix);
      if f.exported && Nested(f.value) {
        ValidateStructReportsFirstMissing(f.value, prefix + f.name + ".");
      }
    }
  }

  /** Validation of a configuration passes exactly when no required field anywhere in it is missing. */
  lemma ValidatePassesIffNothingMissing(config: seq<Field>)
    ensures Validate(config).None? <==> MissingFields(config, "") == []
    ensures Validate(config).Some? ==> Validate(config).value == MissingMessage(MissingFields(config, "")[0])
  {
    ValidateFieldsReportsFirstMissing(config, "");
  }

  /** Unexported fields are never looked at: dropping one changes nothing. */
  lemma UnexportedFieldIgnored(f: Field, rest: seq<Field>, prefix: string)
    requires !f.exported
    ensures ValidateFields([f] + rest, prefix) == ValidateFields(rest, prefix)
  {
  }
}
